=== FILE: README.md ===
# Restaurant-inspection scraper: HTML extraction core

This project models the extraction half of `src/scraper.py` in Dafny. That
code takes a parsed King County inspection-results page and produces three
things:

- the listing blocks: `div` elements whose `id` contains `PR<digits>~`;
- each listing's metadata table, folded into a dictionary from a label to the
  list of values under it, where a row with an empty label continues the
  previous label;
- each listing's score statistics: the average, the highest score and the
  number of inspections, taken from the rows whose first cell mentions
  "inspection" without starting with it.

The parsed document is a tree of `Dom.Element` values. Each element has a tag
name, an optional `id`, optional text (BeautifulSoup's `.string`) and its
children. `find_all` and `find` search the descendants of an element in
document order. This is `Dom.Descendants`, the preorder of the children.

Modules follow the program's structure:

- `Text` models `str.strip(" \n:-")`, lower-casing, `in` and `startswith`.
- `Ints` models `int()` on a string, with its error case.
- `Seqs` holds filtering, subsequences and first-match search.
- `Rows` models `clean_data`, `has_two_tds` and `is_inspection_row`.
- `Listings` models `extract_data_listings`.
- `Metadata` models `extract_restaurant_metadata`.
- `Scores` models `extract_score_data`.

Python's errors become explicit results:

- `None` from `ExtractRestaurantMetadata` is the `AttributeError` raised when a
  listing has no `tbody`.
- `None` from `IsInspectionRowAsWritten` and `SearchAsWritten` is the
  `IndexError` raised at line 107 (see Findings).
- A failed `int()` is `None` from `Ints.ParseInt`. The loop counts it out of
  the samples, as the `except` branch does.

The model follows the code in two places where a reader might expect
otherwise:

- `find('tbody')` returns the first `tbody` anywhere below the listing, not
  only a direct child. `Metadata.FirstTbody` models this.
- Python 3's `int()` skips whitespace around its argument, and
  `strip(" \n:-")` keeps every whitespace character except space and
  newline. So a score cell holding a tab before
  `-5` reads as -5. The high score then stays at its seed 0 while the average
  is negative (`Scores.NegativeScoreExample`).

## Model

| member | source | states |
|---|---|---|
| Dom.Descendants | src/scraper.py:115 | the elements `find_all` and `find` visit, in document order; `Dom.DescendantsClosed` states that they are everything below the start |
| Dom.DescendantsClosed | src/scraper.py:115 | every child of the start element is visited, and so is every child of a visited element |
| Dom.TdChildren | src/scraper.py:71 | `find_all('td', recursive=False)`; `Dom.TdChildrenIff` states its meaning |
| Dom.TdChildrenIff | src/scraper.py:71 | the result holds exactly the direct children named `td`, in child order |
| Text.Strip | src/scraper.py:80 | the result is the input with the longest run of ` `, `\n`, `:` and `-` removed from both ends: every removed character is in the set, and the ends of a non-empty result are not |
| Text.StripOfUnique | src/scraper.py:80 | at most one string meets that description of a stripped string, so it pins down `strip` exactly |
| Text.StripIdempotent | src/scraper.py:80 | stripping twice is stripping once |
| Text.StripEmptyIff | src/scraper.py:80 | the stripped text is empty exactly when every character is a strip character |
| Text.Lower | src/scraper.py:107 | lower-casing keeps the length and maps every character through the ASCII lower-case map |
| Text.Contains | src/scraper.py:108 | `sub in s`; `Text.ContainsIff` states its meaning |
| Text.ContainsIff | src/scraper.py:108 | `sub in s` holds exactly when `s` is some text, then `sub`, then some text |
| Text.StartsWith | src/scraper.py:109 | `s.startswith(prefix)`; `Text.StartsWithIff` states its meaning |
| Text.StartsWithIff | src/scraper.py:109 | `s.startswith(prefix)` holds exactly when `s` is `prefix` followed by some text |
| Rows.CleanData | src/scraper.py:76-82 | a cell without a single text string gives the empty string; otherwise the result is the strip of the cell's text |
| Rows.CleanDataIdempotent | src/scraper.py:76-82 | cleaning a cell that holds already-cleaned text changes nothing |
| Rows.HasTwoTds | src/scraper.py:68-73 | the `tr` test and the count of direct `td` children; `Rows.HasTwoTdsIffTwoCells` states what the count means |
| Rows.HasTwoTdsIffTwoCells | src/scraper.py:68-73 | `has_two_tds` holds exactly when the element is a `tr` and exactly two of its direct children, at two distinct positions, are `td` |
| Rows.IsInspectionRowAsWritten | src/scraper.py:100-110 | the classifier as written, reading the first cell before the count; `Rows.InspectionRowAsWrittenAgrees` relates it to the guarded one |
| Rows.IsInspectionRow | src/scraper.py:100-110 | a `tr` with four direct cells whose lower-cased first cell contains "inspection" but does not start with it |
| Rows.InspectionRowAsWrittenAgrees | src/scraper.py:100-110 | the function as written fails exactly on a `tr` with no direct `td`; everywhere else it returns the corrected predicate's answer |
| Rows.CelllessRowRaises | src/scraper.py:105-107 | `<tr></tr>` makes the as-written function fail, although it is not an inspection row |
| Rows.FirstCellOfFourCellRow | src/scraper.py:105-107 | the first-cell text of a four-cell row is its first cell, lower-cased, when nothing needs stripping |
| Rows.HeaderRowExample | src/scraper.py:107-110 | the header row, whose first cell is "Inspection Date", is not an inspection row |
| Rows.InspectionRowExample | src/scraper.py:107-110 | a row whose first cell is "Red Inspection Notes" is an inspection row |
| Listings.MatchesAtIff | src/scraper.py:64 | the greedy digit-run matcher succeeds at a position exactly when a word of `PR[0-9]+~` starts there |
| Listings.HasListingIdIff | src/scraper.py:64-65 | the `id` test succeeds exactly when some substring of the `id` is a word of `PR[0-9]+~` |
| Listings.HasListingId | src/scraper.py:64 | `pr_id.search(id)` succeeds; `Listings.HasListingIdIff` states its meaning |
| Listings.IsListing | src/scraper.py:64-65 | a `div` with an `id` in which the pattern is found; `Listings.ListingsAreMatchingDivs` states that the search returns exactly these |
| Listings.ExtractDataListings | src/scraper.py:62-65 | every result is a listing `div` below the document, every listing `div` below the document is in the result, and the result keeps document order |
| Listings.ListingsAreMatchingDivs | src/scraper.py:62-65 | the result is exactly the descendants, at the listed positions, that are `div`s whose `id` contains a match of the pattern |
| Listings.ListingIdExamples | src/scraper.py:64 | `PR123~` and `PR45~` are listing ids; `XX1~` is not |
| Listings.ListingsExample | src/scraper.py:62-65 | of three childless blocks, where only the first two are listings, the first two are returned in order |
| Metadata.Append | src/scraper.py:96 | `setdefault(label, []).append(v)` adds `v` at the end of that label's list, leaves every other label alone, adds the label, and adds one value |
| Metadata.AppendKeepsOrder | src/scraper.py:96 | a new label goes at the end of the dictionary; an existing label keeps its position |
| Metadata.AppendKeepsDistinct | src/scraper.py:96 | appending keeps the labels distinct |
| Metadata.AppendKeepsNonEmpty | src/scraper.py:96 | appending keeps every list non-empty |
| Metadata.HeadingsAfterAppend | src/scraper.py:96 | the dictionary's key order after `setdefault(...).append` is the old order, plus the label at the end when it is new |
| Metadata.Fold | src/scraper.py:90-96 | the folded dictionary has distinct labels, holds exactly one value per row, and no label has an empty list |
| Metadata.LastLabelIsMostRecentKey | src/scraper.py:95 | the carried label is the key of the most recent row with a non-empty key, or empty when there is none |
| Metadata.FoldTracksLastLabel | src/scraper.py:91-95 | the loop's `current_label` after any prefix of the rows is that most recent non-empty key |
| Metadata.FoldValuesInRowOrder | src/scraper.py:90-96 | under every label, the dictionary holds the values of the rows that label governs, in row order |
| Metadata.FoldLabels | src/scraper.py:90-96 | the labels are the non-empty keys, plus the empty label exactly when the first row's key is empty |
| Metadata.FoldHeadingsInFirstUseOrder | src/scraper.py:90-96 | the dictionary's keys, in order, are the governing labels of the rows with repeats dropped: each label sits where it first governs a row |
| Metadata.FirstTbody | src/scraper.py:87 | `find('tbody')`: nothing exactly when no descendant is a `tbody`; otherwise the first `tbody` in document order |
| Metadata.MetadataRows | src/scraper.py:87-94 | one row per direct two-cell `tr` of the body, in order, keyed by its cleaned first cell with its cleaned second cell as the value |
| Metadata.ExtractRestaurantMetadata | src/scraper.py:85-97 | fails exactly when the listing has no `tbody` below it; otherwise, from the first such `tbody`, one value per direct two-cell row, distinct labels that are the non-empty keys (plus `""` when the first key is empty) in first-use order, no empty list, and each label's values in row order |
| Metadata.ContinuationExample | src/scraper.py:91-96 | rows `k1: a`, `"": b`, `k2: c` give `{k1: [a, b], k2: [c]}` in that order |
| Ints.ParseInt | src/scraper.py:121-123 | `int(strval)` in Python 3: whitespace at either end is skipped, then an optional sign and one or more digits, and anything else is the `ValueError` case; the whitespace is tab, line feed, vertical tab, form feed, carriage return, space and the non-ASCII `str.isspace()` characters, so U+001C to U+001F are never skipped; `Ints.ParseIntIgnoresSpaces`, `Ints.ParseIntSign` and `Ints.ParseShowRoundTrip` state its properties |
| Ints.ParseShowRoundTrip | src/scraper.py:121 | `int()` reads back every integer's decimal form |
| Ints.ParseIntSign | src/scraper.py:121 | a negative result needs a `-` preceded only by whitespace that `int()` skips |
| Ints.ParseIntIgnoresSpaces | src/scraper.py:121 | whitespace that `int()` skips, before and after any text, does not change what it reads |
| Ints.FileSeparatorExamples | src/scraper.py:121-123 | U+001C before `-5` is a `ValueError`, also when a no-break space follows, while `-5` between two no-break spaces reads -5 |
| Scores.ParsedMembers | src/scraper.py:119-125 | the parsed scores are exactly the values of the texts that `int()` accepts |
| Scores.ParsedEmptyIff | src/scraper.py:119-123 | no score is parsed exactly when `int()` rejects every text |
| Scores.MaxOrZero | src/scraper.py:126 | the high score is at least 0, at least every parsed score, and is 0 or one of them |
| Scores.Summary | src/scraper.py:116-134 | the reference statistics count at most one inspection per score text |
| Scores.Ratio | src/scraper.py:127-128 | the average of lines 127-128; `Scores.RatioIff` states its meaning |
| Scores.RatioIff | src/scraper.py:127-128 | with samples, the average times their number is the total; without, the average is 0 |
| Scores.TallyScores | src/scraper.py:115-134 | the loop, with `samples` starting at the row count and losing one per unparsable text, yields exactly the reference statistics: the number of parsed scores, their mean (0 when there are none) and the zero-seeded maximum; the count never exceeds the number of texts |
| Scores.InspectionRows | src/scraper.py:115-119 | every row the search finds has four direct cells, so reading its third cell cannot fail |
| Scores.SearchAsWritten | src/scraper.py:115 | `find_all(is_inspection_row)` with the as-written classifier, stopping at the first failure; `Scores.SearchAsWrittenAgrees` relates it to the guarded search |
| Scores.SearchAsWrittenAgrees | src/scraper.py:115 | the as-written search fails exactly when some descendant is a `tr` with no direct `td`; otherwise it returns the corrected rows |
| Scores.EmptyRowAbortsScoreData | src/scraper.py:105-115 | a listing that contains an empty `tr` makes the as-written search fail |
| Scores.EmptyRowSkipped | src/scraper.py:115 | the corrected search skips that row and finds no inspection rows |
| Scores.ScoreText | src/scraper.py:119 | the cleaned text of a row's third direct cell |
| Scores.ScoreTexts | src/scraper.py:118-119 | one score text per row, in row order: the cleaned third cell of that row |
| Scores.NegativeScoreNeedsKeptSpace | src/scraper.py:119-121 | a cleaned cell reads as a negative score only if it starts with whitespace that `strip` keeps, because `strip` removes a leading `-` |
| Scores.CleanedScoresNonNegative | src/scraper.py:119-121 | when no score text starts with whitespace, every parsed score is non-negative |
| Scores.MeanWithinBounds | src/scraper.py:126-128 | the average never exceeds the zero-seeded high score, and is not negative when no score is |
| Scores.MaxOrZeroAttained | src/scraper.py:126 | for a non-empty list, the zero-seeded maximum is one of the scores exactly when some score is not negative |
| Scores.ExtractScoreData | src/scraper.py:113-134 | the listing's statistics are the reference statistics of the cleaned third cells of its inspection rows, in document order |
| Scores.HighIsAnInspectionScore | src/scraper.py:117-126 | when some score of the listing parses, the high score is a parsed score exactly when some parsed score is not negative, and always when no score text starts with whitespace |
| Scores.ScoreAverageWithinHigh | src/scraper.py:126-128 | a listing's average never exceeds its high score, and is not negative when no score text starts with whitespace |
| Scores.HighScoreSeedHidesNegatives | src/scraper.py:117-126 | if every parsed score were negative, the zero seed would report a high score of 0 |
| Scores.ScoreExample | src/scraper.py:113-134 | texts `87`, `bad`, `92` give average 89.5, high 92 and 2 inspections |
| Scores.NegativeScoreExample | src/scraper.py:117-128 | a cell holding a tab and `-5` survives cleaning and gives average -5.0, high 0 and 1 inspection |
| Scores.EmptyScoreExample | src/scraper.py:117-128 | no rows give average 0, high 0 and 0 inspections |

## Left out

- `get_inspection_page`, `load_inspection_page` and `copy_results_to_local`: network and file I/O.
- `parse_source` and the `__main__` block: HTML parsing by html5lib and printing. The model starts from the parsed tree.
- BeautifulSoup's `.string` is taken as a field of the element. It is the cell's text when the cell holds a single string, or a single child whose own `.string` is text (`<td><b>87</b></td>` gives "87"), and nothing otherwise. How it is derived from the children is not modelled.
- Text.Lower: lower-cases ASCII letters only. Python's `str.lower` also maps non-ASCII letters.
- Listings.HasListingIdIff: `\d` is modelled as ASCII `0`-`9`. Python 3's `\d` also matches other Unicode decimal digits.
- Ints.ParseInt: accepts surrounding whitespace, an optional sign and ASCII digits. Python's `int()` also allows `_` separators and non-ASCII digits. From Python 3.11 it also raises `ValueError` on more than 4300 digits, a limit that can be changed at run time; the model accepts any length.
- Scores.ScoreText: reads the third direct `td` of the row. The source's `row.find_all('td')[2]` also counts nested cells. The two agree on the four-cell rows the search returns unless a cell holds a nested table.
- Scores.TallyScores: the average is an exact rational. Python computes `total/float(samples)` as a floating-point number, so it is rounded, and it stays the integer `0` when nothing parses. When the total is beyond the range of a double, about 1.8e308 (a score of 310 digits, for example), `float` conversion raises an uncaught `OverflowError` and `extract_score_data` fails; the model still returns the quotient.
- Listings.ExtractDataListings: line 64 uses `re`, which `src/scraper.py:2-4` never imports, so the code as written raises `NameError`. The model gives the evidently intended unanchored search for `PR[0-9]+~` in the `id`.
- Building the final per-restaurant record from metadata and scores is not part of `scraper.py`'s extraction functions, so it is not part of this model.
- Lines 50 and 56 of `src/scraper.py` are syntax errors (a `def` without its colon, and `page.html` as a parameter name), so the module cannot be imported as written. The model describes the extraction functions as they run once those two lines are repaired; the `NameError` and `IndexError` it describes are the failures that remain after that.

## Findings

| source | as written | input that shows it | evidently intended | confidence | as-written member | corrected member |
|---|---|---|---|---|---|---|
| src/scraper.py:105-107 | `td_children[0]` is read before the count of four cells is checked, so a `tr` without a direct `td` raises `IndexError`, and `find_all(is_inspection_row)` at line 115 aborts the whole listing | a listing containing `<tr></tr>` | a row with fewer than four cells is simply not an inspection row | not executed | Rows.IsInspectionRowAsWritten, Rows.CelllessRowRaises, Scores.SearchAsWritten, Scores.EmptyRowAbortsScoreData | Rows.IsInspectionRow, Rows.InspectionRowAsWrittenAgrees, Scores.InspectionRows, Scores.EmptyRowSkipped |

=== FILE: dom.dfy ===
/** The parsed page, abstracted: an element is a tag name, an optional `id`
    attribute, an optional `.string` (the element's single text node, absent
    when there is none) and its child elements in document order. */
module Dom {
  import opened Options
  import opened Seqs

  datatype Element = Element(name: string, id: Option<string>, text: Option<string>, children: seq<Element>)

  /** `e` followed by all elements below it, in document (preorder) order. */
  function Preorder(e: Element): (r: seq<Element>)
    ensures |r| >= 1 && r[0] == e
    decreases e, 1
  {
    [e] + PreorderAll(e.children)
  }

  /** The preorder traversals of `es`, one after another. */
  function PreorderAll(es: seq<Element>): seq<Element>
    decreases es, 0
  {
    if |es| == 0 then [] else Preorder(es[0]) + PreorderAll(es[1..])
  }

  /** The elements a search started at `e` visits: everything below `e`, in
      document order, but not `e` itself. */
  function Descendants(e: Element): seq<Element> {
    PreorderAll(e.children)
  }

  predicate IsTd(e: Element) {
    e.name == "td"
  }

  /** `e.find_all('td', recursive=False)`: the direct `td` children of `e`. */
  function TdChildren(e: Element): seq<Element> {
    Filter(e.children, IsTd)
  }

  /** `find_all('td', recursive=False)` keeps exactly the direct children
      named `td`, in child order. */
  lemma TdChildrenIff(e: Element)
    ensures forall x :: x in TdChildren(e) <==> x in e.children && x.name == "td"
    ensures IsSubsequence(TdChildren(e), e.children)
  {
    FilterIsSubsequence(e.children, IsTd);
  }

  /** Each element of `es` has its whole subtree in `PreorderAll(es)`. */
  lemma {:induction false} InPreorderAll(es: seq<Element>, i: int)
    requires 0 <= i < |es|
    ensures forall x :: x in Preorder(es[i]) ==> x in PreorderAll(es)
    decreases |es|
  {
    if i > 0 {
      InPreorderAll(es[1..], i - 1);
      assert es[1..][i - 1] == es[i];
    }
  }

  /** Everything in `PreorderAll(es)` lies in the subtree of one of `es`. */
  lemma {:induction false} PreorderAllMember(es: seq<Element>, x: Element)
    requires x in PreorderAll(es)
    ensures exists i :: 0 <= i < |es| && x in Preorder(es[i])
    decreases |es|
  {
    if x !in Preorder(es[0]) {
      PreorderAllMember(es[1..], x);
      var i :| 0 <= i < |es[1..]| && x in Preorder(es[1..][i]);
      assert es[1..][i] == es[i + 1];
    }
  }

  /** A child of an element of the preorder of `e` is in it too. */
  lemma {:induction false} PreorderClosed(e: Element, d: Element, c: Element)
    requires d in Preorder(e) && c in d.children
    ensures c in Preorder(e)
    decreases e
  {
    if d == e {
      var i :| 0 <= i < |e.children| && e.children[i] == c;
      InPreorderAll(e.children, i);
    } else {
      PreorderAllMember(e.children, d);
      var j :| 0 <= j < |e.children| && d in Preorder(e.children[j]);
      assert e.children[j] in e.children;
      PreorderClosed(e.children[j], d, c);
      InPreorderAll(e.children, j);
    }
  }

  /** A search from `e` visits every element below it: every child of `e`,
      and every child of an element it visits. */
  lemma DescendantsClosed(e: Element, d: Element, c: Element)
    requires d == e || d in Descendants(e)
    requires c in d.children
    ensures c in Descendants(e)
  {
    if d == e {
      var i :| 0 <= i < |e.children| && e.children[i] == c;
      InPreorderAll(e.children, i);
    } else {
      PreorderAllMember(e.children, d);
      var j :| 0 <= j < |e.children| && d in Preorder(e.children[j]);
      PreorderClosed(e.children[j], d, c);
      InPreorderAll(e.children, j);
    }
  }
}

=== FILE: ints.dfy ===
/** Python 3's `int(text)` on the cleaned score cell: surrounding whitespace
    is ignored, then an optional `+` or `-` must be followed by one or more
    ASCII digits. Anything else fails to parse. */
module Ints {
  import opened Options

  predicate IsDigit(c: char) {
    '0' <= c <= '9'
  }

  predicate AllDigits(s: string) {
    forall k :: 0 <= k < |s| ==> IsDigit(s[k])
  }

  function DigitValue(c: char): nat
    requires IsDigit(c)
  {
    c as int - '0' as int
  }

  /** The base-ten value of a string of digits, most significant first. */
  function DigitsValue(s: string): nat
    requires AllDigits(s)
  {
    if |s| == 0 then 0 else DigitsValue(s[..|s| - 1]) * 10 + DigitValue(s[|s| - 1])
  }

  /** The whitespace `int()` skips around the number. Python 3 copies every
      ASCII character of the text unchanged and maps only non-ASCII
      `str.isspace()` characters to a space; the parser then skips tab, line
      feed, vertical tab, form feed, carriage return and space. So the set is
      `str.isspace()` without U+001C to U+001F: U+0009 to U+000D, U+0020,
      U+0085, U+00A0, U+1680, U+2000 to U+200A, U+2028, U+2029, U+202F,
      U+205F and U+3000, checked by range first. */
  predicate IsSpace(c: char) {
    if c <= ' ' then '\t' <= c <= '\r' || c == ' '
    else if c < '\U{1680}' then c == '\U{85}' || c == '\U{A0}'
    else IsWideSpace(c)
  }

  predicate IsWideSpace(c: char) {
    || c == '\U{1680}'
    || '\U{2000}' <= c <= '\U{200A}'
    || c == '\U{2028}' || c == '\U{2029}' || c == '\U{202F}' || c == '\U{205F}' || c == '\U{3000}'
  }

  /** Letters, digits and signs are not whitespace. */
  lemma LiteralCharNotSpace(c: char)
    requires IsDigit(c) || c == '+' || c == '-' || 'a' <= c <= 'z'
    ensures !IsSpace(c)
  {
  }

  /** The literal `int()` reads: an optional sign, then one or more digits. */
  function ParseLiteral(t: string): Option<int> {
    if |t| > 0 && (t[0] == '+' || t[0] == '-') then
      var digits := t[1..];
      if |digits| > 0 && AllDigits(digits) then
        var magnitude: int := DigitsValue(digits);
        Some(if t[0] == '-' then -magnitude else magnitude)
      else None
    else if |t| > 0 && AllDigits(t) then Some(DigitsValue(t))
    else None
  }

  /** `int(s)`, or `None` where Python raises `ValueError`: whitespace is
      dropped from both ends, and what remains must be a literal. */
  function ParseInt(s: string): Option<int>
    decreases |s|
  {
    if |s| > 0 && IsSpace(s[0]) then ParseInt(s[1..])
    else if |s| > 0 && IsSpace(s[|s| - 1]) then ParseInt(s[..|s| - 1])
    else ParseLiteral(s)
  }

  /** A parsed value is negative only when the first character that is not
      whitespace is `-`. */
  lemma {:induction false} ParseIntSign(s: string)
    requires ParseInt(s).Some?
    ensures ParseInt(s).value < 0 ==>
              exists i :: 0 <= i < |s| && s[i] == '-' && forall k :: 0 <= k < i ==> IsSpace(s[k])
    decreases |s|
  {
    if ParseInt(s).value < 0 {
      if |s| > 0 && IsSpace(s[0]) {
        var rest := s[1..];
        ParseIntSign(rest);
        var i :| 0 <= i < |rest| && rest[i] == '-' && forall k :: 0 <= k < i ==> IsSpace(rest[k]);
        assert s[i + 1] == '-';
        forall k | 0 <= k < i + 1
          ensures IsSpace(s[k])
        {
          if k > 0 {
            assert s[k] == rest[k - 1];
          }
        }
      } else if |s| > 0 && IsSpace(s[|s| - 1]) {
        var init := s[..|s| - 1];
        ParseIntSign(init);
        var i :| 0 <= i < |init| && init[i] == '-' && forall k :: 0 <= k < i ==> IsSpace(init[k]);
        // `s` does not start with whitespace, so the sign comes first.
        assert i == 0 && s[0] == '-';
      } else {
        assert s[0] == '-';
      }
    }
  }

  /** Whitespace after the text does not change what `int()` reads. */
  lemma {:induction false} ParseIntSnocSpace(s: string, c: char)
    requires IsSpace(c)
    ensures ParseInt(s + [c]) == ParseInt(s)
    decreases |s|
  {
    var t := s + [c];
    if |s| > 0 && IsSpace(s[0]) {
      assert t[1..] == s[1..] + [c];
      ParseIntSnocSpace(s[1..], c);
    } else if |s| == 0 {
      assert t[1..] == [];
    } else {
      assert t[..|t| - 1] == s;
    }
  }

  lemma {:induction false} ParseIntLeadingSpaces(before: string, s: string)
    requires forall k :: 0 <= k < |before| ==> IsSpace(before[k])
    ensures ParseInt(before + s) == ParseInt(s)
  {
    if |before| > 0 {
      assert (before + s)[1..] == before[1..] + s;
      ParseIntLeadingSpaces(before[1..], s);
    } else {
      assert before + s == s;
    }
  }

  lemma {:induction false} ParseIntTrailingSpaces(s: string, after: string)
    requires forall k :: 0 <= k < |after| ==> IsSpace(after[k])
    ensures ParseInt(s + after) == ParseInt(s)
  {
    if |after| > 0 {
      var init, last := after[..|after| - 1], after[|after| - 1];
      ParseIntTrailingSpaces(s, init);
      assert s + after == (s + init) + [last];
      ParseIntSnocSpace(s + init, last);
    } else {
      assert s + after == s;
    }
  }

  /** `int()` ignores any whitespace around the text. */
  lemma ParseIntIgnoresSpaces(before: string, s: string, after: string)
    requires forall k :: 0 <= k < |before| ==> IsSpace(before[k])
    requires forall k :: 0 <= k < |after| ==> IsSpace(after[k])
    ensures ParseInt(before + s + after) == ParseInt(s)
  {
    assert before + s + after == before + (s + after);
    ParseIntLeadingSpaces(before, s + after);
    ParseIntTrailingSpaces(s, after);
  }

  /** U+001C is never skipped, whatever else the text holds, while a no-break
      space is. */
  lemma FileSeparatorExamples()
    ensures ParseInt("\U{1C}-5") == None
    ensures ParseInt("\U{1C}-5\U{A0}") == None
    ensures ParseInt("\U{A0}-5\U{A0}") == Some(-5)
  {
    var a := "\U{1C}-5";
    assert !IsDigit(a[0]);
    LiteralCharNotSpace('5');
    assert "\U{1C}-5\U{A0}"[..3] == a;
    var b := "\U{A0}-5\U{A0}";
    assert b[1..] == "-5\U{A0}" && "-5\U{A0}"[..2] == "-5";
    LiteralCharNotSpace('-');
    ParseLiteralDigits("5");
  }

  function DigitChar(d: nat): (c: char)
    requires d < 10
    ensures IsDigit(c) && DigitValue(c) == d
  {
    ('0' as int + d) as char
  }

  /** The decimal digits of `n`, without leading zeros. */
  function NatDigits(n: nat): (s: string)
    ensures |s| > 0 && AllDigits(s)
  {
    if n < 10 then [DigitChar(n)] else NatDigits(n / 10) + [DigitChar(n % 10)]
  }

  /** Python's `str(n)`. */
  function ShowInt(n: int): string {
    if n < 0 then "-" + NatDigits(-n) else NatDigits(n)
  }

  lemma {:induction false} NatDigitsRoundTrip(n: nat)
    ensures DigitsValue(NatDigits(n)) == n
  {
    if n >= 10 {
      var prefix := NatDigits(n / 10);
      var s := NatDigits(n);
      assert s[..|s| - 1] == prefix;
      NatDigitsRoundTrip(n / 10);
    }
  }

  lemma ParseLiteralDigits(d: string)
    requires |d| > 0 && AllDigits(d)
    ensures ParseLiteral(d) == Some(DigitsValue(d))
    ensures ParseLiteral("-" + d) == Some(-(DigitsValue(d) as int))
  {
    assert d[0] != '+' && d[0] != '-';
    assert ("-" + d)[1..] == d;
  }

  /** Parsing the decimal rendering of any integer gives that integer back. */
  lemma ParseShowRoundTrip(n: int)
    ensures ParseInt(ShowInt(n)) == Some(n)
  {
    var t := ShowInt(n);
    var m: nat := if n < 0 then -n else n;
    var d := NatDigits(m);
    NatDigitsRoundTrip(m);
    ParseLiteralDigits(d);
    assert t == if n < 0 then "-" + d else d;
    LiteralCharNotSpace(t[0]);
    LiteralCharNotSpace(t[|t| - 1]);
  }
}

=== FILE: listings.dfy ===
/** `extract_data_listings`: the restaurant listings of a results page are the
    `div` elements whose `id` contains a match of the regular expression
    `PR\d+~` (an unanchored search), in document order. */
module Listings {
  import opened Options
  import opened Seqs
  import opened Ints
  import opened Dom

  /** The end of the run of ASCII digits that starts at position `k` of `s`. */
  function DigitRunEnd(s: string, k: nat): (j: nat)
    requires k <= |s|
    ensures k <= j <= |s|
    ensures forall m :: k <= m < j ==> IsDigit(s[m])
    ensures j < |s| ==> !IsDigit(s[j])
    decreases |s| - k
  {
    if k < |s| && IsDigit(s[k]) then DigitRunEnd(s, k + 1) else k
  }

  /** The matcher tried at position `i`: `PR`, then the greedy digit run, which
      must be non-empty and followed by `~`. */
  predicate MatchesAt(s: string, i: nat) {
    && i + 2 <= |s| && s[i] == 'P' && s[i + 1] == 'R'
    && var j := DigitRunEnd(s, i + 2);
       i + 2 < j < |s| && s[j] == '~'
  }

  /** `pr_id.search(s)` succeeds. */
  predicate HasListingId(s: string) {
    exists i | 0 <= i < |s| :: MatchesAt(s, i)
  }

  /** `s[i..j]` is a word of the language `PR[0-9]+~`. */
  ghost predicate PatternSpans(s: string, i: int, j: int) {
    && 0 <= i && i + 4 <= j <= |s|
    && s[i] == 'P' && s[i + 1] == 'R' && s[j - 1] == '~'
    && forall m :: i + 2 <= m < j - 1 ==> IsDigit(s[m])
  }

  /** The greedy matcher succeeds at `i` exactly when some match of the
      pattern starts at `i`. */
  lemma MatchesAtIff(s: string, i: nat)
    ensures MatchesAt(s, i) <==> exists j :: PatternSpans(s, i, j)
  {
    if MatchesAt(s, i) {
      assert PatternSpans(s, i, DigitRunEnd(s, i + 2) + 1);
    }
    if exists j :: PatternSpans(s, i, j) {
      var j :| PatternSpans(s, i, j);
      var r := DigitRunEnd(s, i + 2);
      // `~` is not a digit, so the greedy run stops exactly before it.
      assert !IsDigit(s[j - 1]);
      assert r == j - 1;
    }
  }

  /** The id test is the unanchored regular-expression search. */
  lemma HasListingIdIff(s: string)
    ensures HasListingId(s) <==> exists i, j :: PatternSpans(s, i, j)
  {
    if HasListingId(s) {
      var i :| 0 <= i < |s| && MatchesAt(s, i);
      MatchesAtIff(s, i);
    }
    if exists i, j :: PatternSpans(s, i, j) {
      var i, j :| PatternSpans(s, i, j);
      MatchesAtIff(s, i);
    }
  }

  /** A listing block: a `div` whose `id` contains a match of `PR\d+~`. */
  predicate IsListing(e: Element) {
    e.name == "div" && e.id.Some? && HasListingId(e.id.value)
  }

  /** `extract_data_listings(parsed)`: `parsed.find_all('div', id=pr_id)`. */
  function ExtractDataListings(doc: Element): (r: seq<Element>)
    ensures forall x :: x in r ==> x in Descendants(doc) && IsListing(x)
    ensures forall x :: x in Descendants(doc) && IsListing(x) ==> x in r
    ensures IsSubsequence(r, Descendants(doc))
  {
    FilterIsSubsequence(Descendants(doc), IsListing);
    Filter(Descendants(doc), IsListing)
  }

  /** The listings are exactly the `div` elements below the document root whose
      id matches the pattern somewhere, taken position by position in document
      order: nothing else is kept, and no match is lost or reordered. */
  lemma {:induction false} ListingsAreMatchingDivs(doc: Element) returns (idx: seq<nat>)
    ensures Embeds(ExtractDataListings(doc), Descendants(doc), idx)
    ensures forall k :: 0 <= k < |Descendants(doc)| ==>
              (k in idx <==> var x := Descendants(doc)[k];
                             x.name == "div" && x.id.Some? && exists i, j :: PatternSpans(x.id.value, i, j))
  {
    var d := Descendants(doc);
    idx := FilterPositions(d, IsListing);
    forall k | 0 <= k < |d|
      ensures k in idx <==> var x := d[k];
                            x.name == "div" && x.id.Some? && exists i, j :: PatternSpans(x.id.value, i, j)
    {
      if d[k].id.Some? {
        HasListingIdIff(d[k].id.value);
      }
    }
  }

  /** The ids of the three example blocks. */
  lemma ListingIdExamples()
    ensures HasListingId("PR123~") && HasListingId("PR45~") && !HasListingId("XX1~")
  {
    assert MatchesAt("PR123~", 0);
    assert MatchesAt("PR45~", 0);
  }

  lemma ThreeBlockDescendants(a: Element, b: Element, c: Element)
    requires a.children == [] && b.children == [] && c.children == []
    ensures Descendants(Element("[document]", None, None, [a, b, c])) == [a, b, c]
  {
    assert [a, b, c][1..] == [b, c] && [b, c][1..] == [c] && [c][1..] == [];
    assert Preorder(a) == [a] && Preorder(b) == [b] && Preorder(c) == [c];
    assert PreorderAll([c]) == [c];
    assert PreorderAll([b, c]) == [b] + PreorderAll([c]);
    assert PreorderAll([a, b, c]) == [a] + PreorderAll([b, c]);
  }

  /** A page of three childless blocks of which the first two are listings and
      the third is not (ids `PR123~`, `PR45~` and `XX1~`, by
      `ListingIdExamples`): the first two are its listings, in page order. */
  lemma ListingsExample(a: Element, b: Element, c: Element)
    requires a.children == [] && b.children == [] && c.children == []
    requires IsListing(a) && IsListing(b) && !IsListing(c)
    ensures ExtractDataListings(Element("[document]", None, None, [a, b, c])) == [a, b]
  {
    ThreeBlockDescendants(a, b, c);
    FilterFirstTwoOfThree(a, b, c, IsListing);
  }
}

=== FILE: metadata.dfy ===
/** `extract_restaurant_metadata`: the two-cell rows of a listing's table body
    folded, in row order, into a dictionary from heading to the list of values
    filed under it. A row whose heading cell is empty continues the heading of the
    row before it. */
module Metadata {
  import opened Options
  import opened Seqs
  import opened Dom
  import opened Rows

  /** The cleaned key and value cells of one metadata row. */
  datatype Row = Row(key: string, value: string)

  /** One dictionary entry: a heading and its values in the order appended. */
  datatype Entry = Entry(heading: string, values: seq<string>)

  /** A Python `dict` from heading to list of values, as its entries in
      insertion order. */
  type Dict = seq<Entry>

  ghost predicate DistinctLabels(d: Dict) {
    forall i, j :: 0 <= i < j < |d| ==> d[i].heading != d[j].heading
  }

  function Labels(d: Dict): set<string> {
    if |d| == 0 then {} else {d[0].heading} + Labels(d[1..])
  }

  /** `rdata.get(heading, [])`. */
  function Get(d: Dict, heading: string): seq<string> {
    if |d| == 0 then []
    else if d[0].heading == heading then d[0].values
    else Get(d[1..], heading)
  }

  /** The number of values over all labels. */
  function ValueCount(d: Dict): nat {
    if |d| == 0 then 0 else |d[0].values| + ValueCount(d[1..])
  }

  lemma {:induction false} InLabels(d: Dict, h: string)
    ensures h in Labels(d) <==> exists i :: 0 <= i < |d| && d[i].heading == h
  {
    if |d| > 0 {
      InLabels(d[1..], h);
      assert forall i :: 1 <= i < |d| ==> d[i] == d[1..][i - 1];
      if exists i :: 0 <= i < |d[1..]| && d[1..][i].heading == h {
        var i :| 0 <= i < |d[1..]| && d[1..][i].heading == h;
        assert d[i + 1].heading == h;
      }
    }
  }

  /** The dictionary's headings in insertion order, as `list(rdata)` gives them. */
  function Headings(d: Dict): (hs: seq<string>)
    ensures |hs| == |d|
    ensures forall i :: 0 <= i < |d| ==> hs[i] == d[i].heading
  {
    if |d| == 0 then [] else [d[0].heading] + Headings(d[1..])
  }

  lemma HeadingsSnoc(d: Dict, e: Entry)
    ensures Headings(d + [e]) == Headings(d) + [e.heading]
  {
    var l, r := Headings(d + [e]), Headings(d) + [e.heading];
    assert forall i :: 0 <= i < |d| ==> (d + [e])[i] == d[i];
    assert forall i :: 0 <= i < |l| ==> l[i] == r[i];
  }

  lemma HeadingsAreLabels(d: Dict, h: string)
    ensures h in Headings(d) <==> h in Labels(d)
  {
    InLabels(d, h);
    var hs := Headings(d);
    if h in hs {
      var i :| 0 <= i < |hs| && hs[i] == h;
    }
  }

  /** No heading is listed with an empty list of values. */
  ghost predicate NoEmptyList(d: Dict) {
    forall i :: 0 <= i < |d| ==> d[i].values != []
  }

  /** `rdata.setdefault(heading, []).append(value)`: the value goes to the end of
      the heading's list and no other heading's list changes. */
  function Append(d: Dict, heading: string, value: string): (r: Dict)
    ensures Get(r, heading) == Get(d, heading) + [value]
    ensures forall h :: h != heading ==> Get(r, h) == Get(d, h)
    ensures Labels(r) == Labels(d) + {heading}
    ensures ValueCount(r) == ValueCount(d) + 1
  {
    if |d| == 0 then [Entry(heading, [value])]
    else if d[0].heading == heading then [Entry(heading, d[0].values + [value])] + d[1..]
    else [d[0]] + Append(d[1..], heading, value)
  }

  /** A new heading is added at the end of the dictionary; a known one keeps
      its place, so the headings stay distinct and in first-seen order. */
  lemma {:induction false} AppendKeepsOrder(d: Dict, heading: string, value: string)
    ensures heading !in Labels(d) ==> Append(d, heading, value) == d + [Entry(heading, [value])]
    ensures heading in Labels(d) ==>
              |Append(d, heading, value)| == |d|
              && forall i :: 0 <= i < |d| ==> Append(d, heading, value)[i].heading == d[i].heading
  {
    if |d| > 0 && d[0].heading != heading {
      AppendKeepsOrder(d[1..], heading, value);
      assert d == [d[0]] + d[1..];
    }
  }

  lemma AppendKeepsDistinct(d: Dict, heading: string, value: string)
    requires DistinctLabels(d)
    ensures DistinctLabels(Append(d, heading, value))
  {
    AppendKeepsOrder(d, heading, value);
    InLabels(d, heading);
  }

  lemma {:induction false} AppendKeepsNonEmpty(d: Dict, heading: string, value: string)
    requires NoEmptyList(d)
    ensures NoEmptyList(Append(d, heading, value))
  {
    if |d| > 0 && d[0].heading != heading {
      assert forall i :: 1 <= i < |d| ==> d[1..][i - 1] == d[i];
      AppendKeepsNonEmpty(d[1..], heading, value);
    }
  }

  /** The heading carried after reading `rows`: the line-95 update
      `current_label = new_label if new_label else current_label`, from the
      initial empty heading. */
  function LastLabel(rows: seq<Row>): string {
    if |rows| == 0 then ""
    else if rows[|rows| - 1].key != "" then rows[|rows| - 1].key
    else LastLabel(rows[..|rows| - 1])
  }

  /** The heading in force after `rows` is the key of the most recent row with a
      non-empty key, or the empty string when no row has one. */
  lemma {:induction false} LastLabelIsMostRecentKey(rows: seq<Row>)
    ensures LastLabel(rows) == "" ==> forall k :: 0 <= k < |rows| ==> rows[k].key == ""
    ensures LastLabel(rows) != "" ==>
              exists j :: 0 <= j < |rows| && rows[j].key == LastLabel(rows)
                          && forall k :: j < k < |rows| ==> rows[k].key == ""
  {
    if |rows| > 0 && rows[|rows| - 1].key == "" {
      var init := rows[..|rows| - 1];
      LastLabelIsMostRecentKey(init);
      assert forall k :: 0 <= k < |init| ==> init[k] == rows[k];
    }
  }

  /** The state of the loop of lines 92-96: the current heading and the
      dictionary built so far. */
  datatype Carry = Carry(current: string, data: Dict)

  /** The loop of lines 91-96 over the rows read so far. */
  function Fold(rows: seq<Row>): (c: Carry)
    ensures DistinctLabels(c.data)
    ensures ValueCount(c.data) == |rows|
    ensures NoEmptyList(c.data)
  {
    if |rows| == 0 then Carry("", [])
    else
      var before := Fold(rows[..|rows| - 1]);
      var row := rows[|rows| - 1];
      var heading := if row.key != "" then row.key else before.current;
      AppendKeepsDistinct(before.data, heading, row.value);
      AppendKeepsNonEmpty(before.data, heading, row.value);
      Carry(heading, Append(before.data, heading, row.value))
  }

  /** The values filed under `heading` when each row goes to the heading in force
      after it, listed in row order. */
  function ValuesUnder(rows: seq<Row>, heading: string): seq<string> {
    if |rows| == 0 then []
    else ValuesUnder(rows[..|rows| - 1], heading)
         + (if LastLabel(rows) == heading then [rows[|rows| - 1].value] else [])
  }

  /** The fold's current heading is the heading in force after the rows read. */
  lemma {:induction false} FoldTracksLastLabel(rows: seq<Row>)
    ensures Fold(rows).current == LastLabel(rows)
  {
    if |rows| > 0 {
      FoldTracksLastLabel(rows[..|rows| - 1]);
    }
  }

  /** Every row contributes its value, once, to the list of the heading in force
      at that row; each list holds its values in row order. */
  lemma {:induction false} FoldValuesInRowOrder(rows: seq<Row>)
    ensures forall heading :: Get(Fold(rows).data, heading) == ValuesUnder(rows, heading)
  {
    if |rows| > 0 {
      FoldValuesInRowOrder(rows[..|rows| - 1]);
      FoldTracksLastLabel(rows[..|rows| - 1]);
    }
  }

  /** The non-empty key cells among `rows`. */
  ghost function KeySet(rows: seq<Row>): set<string> {
    set j | 0 <= j < |rows| && rows[j].key != "" :: rows[j].key
  }

  lemma KeySetSnoc(rows: seq<Row>)
    requires |rows| > 0
    ensures KeySet(rows) == KeySet(rows[..|rows| - 1])
                            + (if rows[|rows| - 1].key != "" then {rows[|rows| - 1].key} else {})
  {
    var init := rows[..|rows| - 1];
    assert forall k :: 0 <= k < |init| ==> init[k] == rows[k];
  }

  /** The dictionary's labels are the non-empty key cells, plus the empty heading
      exactly when the first row's key cell is empty. */
  lemma {:induction false} FoldLabels(rows: seq<Row>)
    ensures Labels(Fold(rows).data)
            == KeySet(rows) + (if |rows| > 0 && rows[0].key == "" then {""} else {})
  {
    if |rows| > 0 {
      var init := rows[..|rows| - 1];
      var last := rows[|rows| - 1];
      FoldLabels(init);
      FoldTracksLastLabel(init);
      LastLabelIsMostRecentKey(init);
      KeySetSnoc(rows);
      if last.key == "" && LastLabel(init) != "" {
        var j :| 0 <= j < |init| && init[j].key == LastLabel(init);
        assert rows[j] == init[j];
      }
    }
  }

  /** The heading each row is filed under, in row order. */
  function Governing(rows: seq<Row>): (hs: seq<string>)
    ensures |hs| == |rows|
  {
    if |rows| == 0 then [] else Governing(rows[..|rows| - 1]) + [LastLabel(rows)]
  }

  /** Appending lists a heading it has not seen at the end, and leaves the
      headings alone otherwise. */
  lemma HeadingsAfterAppend(d: Dict, h: string, value: string)
    ensures Headings(Append(d, h, value)) == if h in Headings(d) then Headings(d) else Headings(d) + [h]
  {
    AppendKeepsOrder(d, h, value);
    HeadingsAreLabels(d, h);
    if h !in Labels(d) {
      HeadingsSnoc(d, Entry(h, [value]));
    } else {
      assert Headings(Append(d, h, value)) == Headings(d);
    }
  }

  /** The dictionary lists each heading once, at the row where it is first
      used: its headings are the governing headings with repeats dropped. */
  lemma {:induction false} FoldHeadingsInFirstUseOrder(rows: seq<Row>)
    ensures Headings(Fold(rows).data) == Dedup(Governing(rows))
  {
    if |rows| > 0 {
      var init := rows[..|rows| - 1];
      var row := rows[|rows| - 1];
      FoldHeadingsInFirstUseOrder(init);
      FoldTracksLastLabel(init);
      var d := Fold(init).data;
      var h := LastLabel(rows);
      assert Fold(rows).data == Append(d, h, row.value);
      assert Governing(rows) == Governing(init) + [h];
      DedupSnoc(Governing(init), h);
      HeadingsAfterAppend(d, h, row.value);
    }
  }

  /** The rows of lines 87-89, cleaned: the two direct cells of each
      two-cell row. */
  function CellPairs(trs: seq<Element>): (r: seq<Row>)
    requires forall k :: 0 <= k < |trs| ==> HasTwoTds(trs[k])
    ensures |r| == |trs|
  {
    seq(|trs|, k requires 0 <= k < |trs| && HasTwoTds(trs[k]) =>
      var cells := TdChildren(trs[k]);
      Row(CleanData(cells[0]), CleanData(cells[1])))
  }

  /** The direct two-cell rows of a table body, cleaned: one row per such
      `tr`, in order, keyed by its first cell with its second as the value. */
  function MetadataRows(tbody: Element): (rows: seq<Row>)
    ensures var trs := Filter(tbody.children, HasTwoTds);
            && |rows| == |trs|
            && forall k :: 0 <= k < |trs| ==>
                 && rows[k].key == CleanData(TdChildren(trs[k])[0])
                 && rows[k].value == CleanData(TdChildren(trs[k])[1])
  {
    CellPairs(Filter(tbody.children, HasTwoTds))
  }

  predicate IsTbody(e: Element) {
    e.name == "tbody"
  }

  /** `elem.find('tbody')`: the first table body below the listing, in
      document order, or nothing when there is none. */
  function FirstTbody(e: Element): (r: Option<Element>)
    ensures r.None? <==> forall k :: 0 <= k < |Descendants(e)| ==> Descendants(e)[k].name != "tbody"
    ensures r.Some? ==> exists i :: 0 <= i < |Descendants(e)| && Descendants(e)[i] == r.value
                                    && r.value.name == "tbody"
                                    && forall k :: 0 <= k < i ==> Descendants(e)[k].name != "tbody"
  {
    FindFirst(Descendants(e), IsTbody)
  }

  /** `extract_restaurant_metadata(elem)`; `None` where the source raises
      `AttributeError` because the listing holds no table body. */
  function ExtractRestaurantMetadata(e: Element): (r: Option<Dict>)
    ensures r.None? <==> forall k :: 0 <= k < |Descendants(e)| ==> Descendants(e)[k].name != "tbody"
    ensures r.Some? ==> FirstTbody(e).Some?
    ensures r.Some? && FirstTbody(e).Some? ==>
              var rows := MetadataRows(FirstTbody(e).value);
              && DistinctLabels(r.value)
              && ValueCount(r.value) == |Filter(FirstTbody(e).value.children, HasTwoTds)|
              && NoEmptyList(r.value)
              && Labels(r.value) == KeySet(rows) + (if |rows| > 0 && rows[0].key == "" then {""} else {})
              && Headings(r.value) == Dedup(Governing(rows))
              && forall heading :: Get(r.value, heading) == ValuesUnder(rows, heading)
  {
    match FirstTbody(e)
    case None => None
    case Some(tbody) =>
      var rows := MetadataRows(tbody);
      FoldValuesInRowOrder(rows);
      FoldLabels(rows);
      FoldHeadingsInFirstUseOrder(rows);
      Some(Fold(rows).data)
  }

  /** One more row: its value is appended under its own key, or under the
      carried heading when its key is empty. */
  lemma FoldSnoc(rows: seq<Row>, row: Row)
    ensures Fold(rows + [row])
            == var heading := if row.key != "" then row.key else Fold(rows).current;
               Carry(heading, Append(Fold(rows).data, heading, row.value))
  {
    assert (rows + [row])[..|rows|] == rows;
  }

  lemma FoldOneRow(k: string, a: string)
    requires k != ""
    ensures Fold([Row(k, a)]) == Carry(k, [Entry(k, [a])])
  {
    assert [Row(k, a)][..0] == [];
  }

  lemma ContinuationFirstTwo(k1: string, a: string, b: string)
    requires k1 != ""
    ensures Fold([Row(k1, a), Row("", b)]) == Carry(k1, [Entry(k1, [a, b])])
  {
    var rows := [Row(k1, a), Row("", b)];
    assert rows[..1] == [Row(k1, a)];
    FoldOneRow(k1, a);
    var first := [Entry(k1, [a])];
    assert first[1..] == [];
    assert first[0].values + [b] == [a, b];
    assert Append(first, k1, b) == [Entry(k1, [a, b])];
  }

  /** Rows (k1, a), ("", b), (k2, c) with distinct non-empty keys, such as
      ("Name", "A"), ("", "B"), ("Addr", "C"), give {k1: [a, b], k2: [c]}. */
  lemma ContinuationExample(k1: string, k2: string, a: string, b: string, c: string)
    requires k1 != "" && k2 != "" && k1 != k2
    ensures Fold([Row(k1, a), Row("", b), Row(k2, c)]).data == [Entry(k1, [a, b]), Entry(k2, [c])]
  {
    var r1, r2, r3 := Row(k1, a), Row("", b), Row(k2, c);
    ContinuationFirstTwo(k1, a, b);
    FoldSnoc([r1, r2], r3);
    assert [r1, r2] + [r3] == [r1, r2, r3];
    var second := [Entry(k1, [a, b])];
    assert second[1..] == [];
    assert Append(second[1..], k2, c) == [Entry(k2, [c])];
  }
}

=== FILE: options.dfy ===
/** The optional value used throughout the model: a cell whose text node may be
    missing, a parse that may fail, a lookup that may find nothing. */
module Options {
  datatype Option<+T> = None | Some(value: T)
}

=== FILE: rows.dfy ===
/** The cell normaliser and the two row classifiers of the scraper
    (`clean_data`, `has_two_tds`, `is_inspection_row`). */
module Rows {
  import opened Options
  import opened Seqs
  import opened Text
  import opened Dom

  /** `clean_data(td)`: the cell's text node stripped of spaces, newlines, `:`
      and `-` at both ends; a cell without a text node gives the empty string. */
  function CleanData(td: Element): (r: string)
    ensures td.text.None? ==> r == ""
    ensures td.text.Some? ==> IsStripOf(td.text.value, r)
  {
    match td.text
    case None => ""
    case Some(s) => Strip(s)
  }

  /** Cleaning a cell whose text is already clean changes nothing. */
  lemma CleanDataIdempotent(td: Element)
    ensures CleanData(td.(text := Some(CleanData(td)))) == CleanData(td)
  {
    if td.text.Some? {
      StripIdempotent(td.text.value);
    }
  }

  /** `has_two_tds(elem)`: a `tr` with exactly two direct `td` children. */
  predicate HasTwoTds(e: Element) {
    e.name == "tr" && |TdChildren(e)| == 2
  }

  /** Among `cs`, the cells are exactly those at positions `i` and `j`. */
  ghost predicate TdsExactlyAt(cs: seq<Element>, i: int, j: int) {
    && 0 <= i < j < |cs|
    && forall k :: 0 <= k < |cs| ==> (IsTd(cs[k]) <==> k == i || k == j)
  }

  /** A row is a metadata row exactly when it is a `tr` and precisely two of its
      direct children, counted by position, are `td` cells: rows with no, one,
      three or more direct cells are not. */
  lemma HasTwoTdsIffTwoCells(e: Element)
    ensures HasTwoTds(e) <==> e.name == "tr" && exists i, j :: TdsExactlyAt(e.children, i, j)
  {
    var cs := e.children;
    var idx := FilterPositions(cs, IsTd);
    assert forall m :: 0 <= m < |idx| ==> idx[m] in idx;
    if |idx| == 2 {
      assert TdsExactlyAt(cs, idx[0], idx[1]);
    }
    if exists i, j :: TdsExactlyAt(cs, i, j) {
      var i, j :| TdsExactlyAt(cs, i, j);
      assert i in idx && j in idx;
      assert forall m :: 0 <= m < |idx| ==> idx[m] == i || idx[m] == j;
      var m :| 0 <= m < |idx| && idx[m] == i;
      var n :| 0 <= n < |idx| && idx[n] == j;
      // The positions are increasing and drawn from {i, j}: i comes first, j last.
      assert idx[0] in {i, j};
      assert m == 0;
      assert idx[|idx| - 1] in {i, j};
      assert n == |idx| - 1;
      assert idx[1] == j;
    }
  }

  /** A `tr` without a direct `td` cell. */
  predicate IsCelllessRow(e: Element) {
    e.name == "tr" && |TdChildren(e)| == 0
  }

  /** `is_inspection_row(elem)` as written: line 107 reads the first direct
      cell before the cell count is known, so a `tr` without direct `td`
      children raises `IndexError`, modelled as `None`. */
  function IsInspectionRowAsWritten(e: Element): Option<bool> {
    if e.name != "tr" then Some(false)
    else
      var tds := TdChildren(e);
      if |tds| == 0 then None
      else
        var text := Lower(CleanData(tds[0]));
        Some(|tds| == 4 && Contains(text, "inspection") && !StartsWith(text, "inspection"))
  }

  /** The lower-cased cleaned text of a row's first direct cell. */
  function FirstCellText(e: Element): string
    requires |TdChildren(e)| > 0
  {
    Lower(CleanData(TdChildren(e)[0]))
  }

  /** `is_inspection_row(elem)` with the cell count checked before the first
      cell is read: a `tr` with four direct cells whose first cell mentions
      "inspection" anywhere but at its start (that excludes the header row). */
  predicate IsInspectionRow(e: Element) {
    && e.name == "tr"
    && |TdChildren(e)| == 4
    && Contains(FirstCellText(e), "inspection")
    && !StartsWith(FirstCellText(e), "inspection")
  }

  /** The source's classifier raises exactly on `tr` rows with no direct cell;
      wherever it returns, it agrees with the guarded one. */
  lemma InspectionRowAsWrittenAgrees(e: Element)
    ensures IsInspectionRowAsWritten(e).None? <==> IsCelllessRow(e)
    ensures IsInspectionRowAsWritten(e).Some? ==> IsInspectionRowAsWritten(e).value == IsInspectionRow(e)
  {
  }

  /** A header-less empty row `<tr></tr>` makes the source's classifier raise,
      while the guarded classifier rejects it. */
  lemma CelllessRowRaises()
    ensures IsInspectionRowAsWritten(Element("tr", None, None, [])) == None
    ensures !IsInspectionRow(Element("tr", None, None, []))
  {
  }

  /** A `td` cell whose text node is `s`. */
  function TextCell(s: string): Element {
    Element("td", None, Some(s), [])
  }

  /** A four-cell `tr` whose first cell has the text `first`. */
  function FourCellRow(first: string): Element {
    Element("tr", None, None, [TextCell(first), TextCell("01/02/2015"), TextCell("87"), TextCell("")])
  }

  /** A cell text that starts and ends with a letter is left as it is. */
  lemma CleanLetters(s: string)
    requires |s| > 0 && !IsStripChar(s[0]) && !IsStripChar(s[|s| - 1])
    ensures Strip(s) == s
  {
    assert s == s[0..|s|];
    assert IsStripOf(s, s);
    StripOfUnique(s, Strip(s), s);
  }

  /** `lowered` is `s` with every character lower-cased. */
  predicate IsLowered(s: string, lowered: string) {
    |lowered| == |s| && forall k :: 0 <= k < |s| ==> lowered[k] == LowerChar(s[k])
  }

  /** The first-cell text the classifier inspects in a four-cell row. */
  lemma FirstCellOfFourCellRow(first: string, lowered: string)
    requires |first| > 0 && !IsStripChar(first[0]) && !IsStripChar(first[|first| - 1])
    requires IsLowered(first, lowered)
    ensures |TdChildren(FourCellRow(first))| == 4
    ensures FirstCellText(FourCellRow(first)) == lowered
  {
    var cells := FourCellRow(first).children;
    assert forall k :: 0 <= k < |cells| ==> IsTd(cells[k]);
    FilterKeepsAll(cells, IsTd);
    CleanLetters(first);
    assert CleanData(cells[0]) == first;
  }

  lemma HeaderLowered()
    ensures IsLowered("Inspection Date", "inspection date")
  {
  }

  /** The column-title row is not an inspection row. */
  lemma HeaderRowExample()
    ensures !IsInspectionRow(FourCellRow("Inspection Date"))
  {
    HeaderLowered();
    FirstCellOfFourCellRow("Inspection Date", "inspection date");
    assert "inspection date"[..10] == "inspection";
  }

  lemma RedInspectionNotesLowered()
    ensures IsLowered("Red Inspection Notes", "red inspection notes")
  {
  }

  /** A row that mentions inspection after its first word is an inspection row. */
  lemma InspectionRowExample()
    ensures IsInspectionRow(FourCellRow("Red Inspection Notes"))
  {
    RedInspectionNotesLowered();
    FirstCellOfFourCellRow("Red Inspection Notes", "red inspection notes");
    RedInspectionNotesMarker();
  }

  lemma RedInspectionNotesMarker()
    ensures Contains("red inspection notes", "inspection")
    ensures !StartsWith("red inspection notes", "inspection")
  {
    assert OccursAt("red inspection notes", "inspection", 4);
    assert "red inspection notes"[..10][0] != "inspection"[0];
  }
}

=== FILE: scores.dfy ===
/** `extract_score_data`: the inspection rows anywhere below a listing, their
    score cells parsed as integers, and three statistics over the scores that
    parse: how many there are, their mean and their maximum. */
module Scores {
  import opened Options
  import opened Seqs
  import opened Ints
  import opened Text
  import opened Dom
  import opened Rows

  /** The dictionary of lines 129-133: `Average Score`, `High Score` and
      `Total Inspections`. The average is the exact rational quotient; the
      source rounds it to a floating-point number. */
  datatype ScoreStats = ScoreStats(average: real, high: int, inspections: int)

  /** The scores among `texts` that parse as integers, in order. */
  function Parsed(texts: seq<string>): (xs: seq<int>)
    ensures |xs| <= |texts|
  {
    if |texts| == 0 then []
    else
      var before := Parsed(texts[..|texts| - 1]);
      match ParseInt(texts[|texts| - 1])
      case None => before
      case Some(v) => before + [v]
  }

  /** Every score that parses is kept, and nothing else is. */
  lemma {:induction false} ParsedMembers(texts: seq<string>)
    ensures forall k :: 0 <= k < |texts| && ParseInt(texts[k]).Some? ==> ParseInt(texts[k]).value in Parsed(texts)
    ensures forall v :: v in Parsed(texts) ==> exists k :: 0 <= k < |texts| && ParseInt(texts[k]) == Some(v)
  {
    if |texts| > 0 {
      var init := texts[..|texts| - 1];
      ParsedMembers(init);
      assert forall k :: 0 <= k < |init| ==> init[k] == texts[k];
    }
  }

  lemma ParsedSnoc(texts: seq<string>, t: string)
    ensures Parsed(texts + [t]) == Parsed(texts) + (if ParseInt(t).Some? then [ParseInt(t).value] else [])
  {
    assert (texts + [t])[..|texts|] == texts;
  }

  /** The scores among the first `n` texts that parse, in order: the part of
      `Parsed` a loop over the texts has seen after `n` steps. */
  function ParsedUpTo(texts: seq<string>, n: nat): seq<int>
    requires n <= |texts|
  {
    if n == 0 then []
    else
      ParsedUpTo(texts, n - 1)
      + (if ParseInt(texts[n - 1]).Some? then [ParseInt(texts[n - 1]).value] else [])
  }

  lemma {:induction false} ParsedUpToPrefix(texts: seq<string>, n: nat)
    requires n <= |texts|
    ensures ParsedUpTo(texts, n) == Parsed(texts[..n])
  {
    if n > 0 {
      ParsedUpToPrefix(texts, n - 1);
      assert texts[..n][..n - 1] == texts[..n - 1];
    }
  }

  lemma ParsedUpToAll(texts: seq<string>)
    ensures ParsedUpTo(texts, |texts|) == Parsed(texts)
  {
    ParsedUpToPrefix(texts, |texts|);
    assert texts[..|texts|] == texts;
  }

  /** No score parses exactly when the parsed list is empty. */
  lemma {:induction false} ParsedEmptyIff(texts: seq<string>)
    ensures Parsed(texts) == [] <==> forall k :: 0 <= k < |texts| ==> ParseInt(texts[k]).None?
  {
    if |texts| > 0 {
      var init := texts[..|texts| - 1];
      ParsedEmptyIff(init);
      assert forall k :: 0 <= k < |init| ==> init[k] == texts[k];
    }
  }

  function Sum(xs: seq<int>): int {
    if |xs| == 0 then 0 else Sum(xs[..|xs| - 1]) + xs[|xs| - 1]
  }

  lemma SumSnoc(xs: seq<int>, v: int)
    ensures Sum(xs + [v]) == Sum(xs) + v
  {
    assert (xs + [v])[..|xs|] == xs;
  }

  /** The running maximum of lines 117 and 126, seeded with 0. */
  function MaxOrZero(xs: seq<int>): (m: int)
    ensures m >= 0
    ensures forall k :: 0 <= k < |xs| ==> xs[k] <= m
    ensures m == 0 || m in xs
  {
    if |xs| == 0 then 0
    else
      var m := MaxOrZero(xs[..|xs| - 1]);
      assert forall k :: 0 <= k < |xs| - 1 ==> xs[k] == xs[..|xs| - 1][k];
      if xs[|xs| - 1] > m then xs[|xs| - 1] else m
  }

  lemma MaxOrZeroSnoc(xs: seq<int>, v: int)
    ensures MaxOrZero(xs + [v]) == if v > MaxOrZero(xs) then v else MaxOrZero(xs)
  {
    assert (xs + [v])[..|xs|] == xs;
  }

  /** The statistics the source promises, stated from their definitions: the
      number of scores that parse, their mean (0 when there is none) and the
      larger of 0 and their maximum. */
  function Summary(texts: seq<string>): (stats: ScoreStats)
    ensures stats.inspections <= |texts|
  {
    var xs := Parsed(texts);
    ScoreStats(Mean(xs), MaxOrZero(xs), |xs|)
  }

  /** Lines 127-128: the total over the number of samples, or 0 when there
      are no samples. */
  function Ratio(total: int, samples: int): real {
    if samples != 0 then total as real / samples as real else 0.0
  }

  /** With samples, the average times their number gives back the total;
      without, it is 0 and nothing is divided. */
  lemma RatioIff(total: int, samples: int)
    ensures samples != 0 ==> Ratio(total, samples) * samples as real == total as real
    ensures samples == 0 ==> Ratio(total, samples) == 0.0
  {
  }

  /** The mean of a list of scores, 0 for the empty list. */
  function Mean(xs: seq<int>): real {
    Ratio(Sum(xs), |xs|)
  }

  /** The loop of lines 116-128 over the cleaned score texts: `samples`
      starts at the number of rows and loses one per text that does not parse. */
  method TallyScores(texts: seq<string>) returns (stats: ScoreStats)
    ensures stats == Summary(texts)
    ensures 0 <= stats.inspections <= |texts|
  {
    var samples := |texts|;
    var total := 0;
    var high := 0;
    var i := 0;
    ghost var xs: seq<int> := [];
    while i < |texts|
      invariant 0 <= i <= |texts|
      invariant xs == ParsedUpTo(texts, i)
      invariant samples == |texts| - i + |xs|
      invariant total == Sum(xs)
      invariant high == MaxOrZero(xs)
    {
      var parsed := ParseInt(texts[i]);
      if parsed.Some? {
        var v := parsed.value;
        SumSnoc(xs, v);
        MaxOrZeroSnoc(xs, v);
        xs := xs + [v];
        total := total + v;
        high := if v > high then v else high;
      } else {
        samples := samples - 1;
      }
      i := i + 1;
    }
    ParsedUpToAll(texts);
    stats := ScoreStats(Ratio(total, samples), high, samples);
  }

  /** `elem.find_all(is_inspection_row)`: the inspection rows anywhere below the
      listing, in document order. */
  function InspectionRows(e: Element): (rows: seq<Element>)
    ensures forall k :: 0 <= k < |rows| ==> |TdChildren(rows[k])| == 4
  {
    var found := Filter(Descendants(e), IsInspectionRow);
    assert forall k :: 0 <= k < |found| ==> IsInspectionRow(found[k]) by {
      forall k | 0 <= k < |found| ensures IsInspectionRow(found[k]) {
        assert found[k] in found;
      }
    }
    found
  }

  /** `find_all(is_inspection_row)` over `s` with the source's classifier: the
      search stops with `IndexError` (`None`) at the first cell-less `tr`. */
  function SearchAsWritten(s: seq<Element>): Option<seq<Element>> {
    if |s| == 0 then Some([])
    else
      match SearchAsWritten(s[..|s| - 1])
      case None => None
      case Some(found) =>
        match IsInspectionRowAsWritten(s[|s| - 1])
        case None => None
        case Some(keep) => Some(if keep then found + [s[|s| - 1]] else found)
  }

  /** The source's search fails exactly when some visited element is a `tr`
      without a direct cell; otherwise it finds what the guarded search finds. */
  lemma {:induction false} SearchAsWrittenAgrees(s: seq<Element>)
    ensures SearchAsWritten(s).None? <==> exists k :: 0 <= k < |s| && IsCelllessRow(s[k])
    ensures SearchAsWritten(s).Some? ==> SearchAsWritten(s).value == Filter(s, IsInspectionRow)
  {
    if |s| > 0 {
      var init, last := s[..|s| - 1], s[|s| - 1];
      SearchAsWrittenAgrees(init);
      InspectionRowAsWrittenAgrees(last);
      assert s == init + [last];
      FilterAppendOne(init, last, IsInspectionRow);
      if exists k :: 0 <= k < |init| && IsCelllessRow(init[k]) {
        var k :| 0 <= k < |init| && IsCelllessRow(init[k]);
        assert s[k] == init[k];
      }
      if exists k :: 0 <= k < |s| && IsCelllessRow(s[k]) {
        var k :| 0 <= k < |s| && IsCelllessRow(s[k]);
        assert k < |init| ==> init[k] == s[k];
      }
    }
  }

  /** A listing whose table holds an empty row `<tr></tr>`. */
  function ListingWithEmptyRow(): Element {
    Element("div", Some("PR1~"), None, [Element("table", None, None, [Element("tr", None, None, [])])])
  }

  lemma ListingWithEmptyRowDescendants()
    ensures Descendants(ListingWithEmptyRow())
            == [Element("table", None, None, [Element("tr", None, None, [])]), Element("tr", None, None, [])]
  {
    var tr := Element("tr", None, None, []);
    var table := Element("table", None, None, [tr]);
    assert [tr][1..] == [] && [table][1..] == [];
    assert Preorder(tr) == [tr];
    assert PreorderAll([tr]) == [tr];
    assert Preorder(table) == [table, tr];
  }

  /** On that listing the source's `extract_score_data` raises `IndexError`. */
  lemma EmptyRowAbortsScoreData()
    ensures SearchAsWritten(Descendants(ListingWithEmptyRow())) == None
  {
    ListingWithEmptyRowDescendants();
    var d := Descendants(ListingWithEmptyRow());
    SearchAsWrittenAgrees(d);
    assert IsCelllessRow(d[1]);
  }

  /** The guarded search skips the empty row and finds no inspection row. */
  lemma EmptyRowSkipped()
    ensures InspectionRows(ListingWithEmptyRow()) == []
  {
    ListingWithEmptyRowDescendants();
    var tr := Element("tr", None, None, []);
    var table := Element("table", None, None, [tr]);
    FilterAppendOne([], table, IsInspectionRow);
    FilterAppendOne([table], tr, IsInspectionRow);
  }

  /** `clean_data(row.find_all('td')[2])`: the cleaned text of a row's third
      cell. */
  function ScoreText(row: Element): string
    requires |TdChildren(row)| > 2
  {
    CleanData(TdChildren(row)[2])
  }

  /** The score texts of the inspection rows, in row order. */
  function ScoreTexts(rows: seq<Element>): (texts: seq<string>)
    requires forall k :: 0 <= k < |rows| ==> |TdChildren(rows[k])| > 2
    ensures |texts| == |rows|
    ensures forall k :: 0 <= k < |rows| ==> texts[k] == ScoreText(rows[k])
  {
    if |rows| == 0 then []
    else ScoreTexts(rows[..|rows| - 1]) + [ScoreText(rows[|rows| - 1])]
  }

  /** A cleaned cell never starts with `-`. */
  lemma CleanDataNoLeadingDash(td: Element)
    ensures CleanData(td) == "" || CleanData(td)[0] != '-'
  {
  }

  /** The text starts with whitespace that `int()` skips. */
  predicate StartsWithSpace(s: string) {
    |s| > 0 && IsSpace(s[0])
  }

  /** A cleaned cell reads as a negative score only when it starts with
      whitespace that `strip(" \n:-")` keeps (a tab, say) before its `-`. */
  lemma NegativeScoreNeedsKeptSpace(td: Element)
    ensures var s := CleanData(td);
            ParseInt(s).Some? && ParseInt(s).value < 0 ==> StartsWithSpace(s) && !IsStripChar(s[0])
  {
    var s := CleanData(td);
    if ParseInt(s).Some? && ParseInt(s).value < 0 {
      ParseIntSign(s);
      var i :| 0 <= i < |s| && s[i] == '-' && forall k :: 0 <= k < i ==> IsSpace(s[k]);
      CleanDataNoLeadingDash(td);
      assert 0 < i;
    }
  }

  /** When no score text starts with whitespace, no parsed score is negative. */
  lemma {:induction false} CleanedScoresNonNegative(rows: seq<Element>)
    requires forall k :: 0 <= k < |rows| ==> |TdChildren(rows[k])| > 2
    ensures (forall k :: 0 <= k < |rows| ==> !StartsWithSpace(ScoreText(rows[k]))) ==>
              forall k :: 0 <= k < |Parsed(ScoreTexts(rows))| ==> Parsed(ScoreTexts(rows))[k] >= 0
  {
    var texts := ScoreTexts(rows);
    if forall k :: 0 <= k < |rows| ==> !StartsWithSpace(ScoreText(rows[k])) {
      forall k | 0 <= k < |texts| && ParseInt(texts[k]).Some?
        ensures ParseInt(texts[k]).value >= 0
      {
        NegativeScoreNeedsKeptSpace(TdChildren(rows[k])[2]);
      }
      NonNegativeParsed(texts);
    }
  }

  lemma NonNegativeParsed(texts: seq<string>)
    requires forall k :: 0 <= k < |texts| && ParseInt(texts[k]).Some? ==> ParseInt(texts[k]).value >= 0
    ensures forall j :: 0 <= j < |Parsed(texts)| ==> Parsed(texts)[j] >= 0
  {
    var xs := Parsed(texts);
    ParsedMembers(texts);
    forall j | 0 <= j < |xs|
      ensures xs[j] >= 0
    {
      assert xs[j] in xs;
    }
  }

  /** A sum of values none above `m` is at most `m` times their number. */
  lemma {:induction false} SumAtMost(xs: seq<int>, m: int)
    requires forall k :: 0 <= k < |xs| ==> xs[k] <= m
    ensures Sum(xs) <= |xs| * m
  {
    if |xs| > 0 {
      SumAtMost(xs[..|xs| - 1], m);
    }
  }

  /** A sum of non-negative values is non-negative. */
  lemma {:induction false} SumNonNegative(xs: seq<int>)
    requires forall k :: 0 <= k < |xs| ==> xs[k] >= 0
    ensures Sum(xs) >= 0
  {
    if |xs| > 0 {
      SumNonNegative(xs[..|xs| - 1]);
    }
  }

  lemma QuotientAtMost(s: int, n: int, m: int)
    requires n > 0 && s <= n * m
    ensures s as real / n as real <= m as real
  {
    var q := s as real / n as real;
    assert q * n as real == s as real;
    assert (m as real - q) * n as real >= 0.0;
  }

  lemma QuotientNonNegative(s: int, n: int)
    requires n > 0 && 0 <= s
    ensures 0.0 <= s as real / n as real
  {
  }

  /** The average never exceeds the high score; over scores that are not
      negative it is not negative either. */
  lemma MeanWithinBounds(xs: seq<int>)
    ensures Mean(xs) <= MaxOrZero(xs) as real
    ensures (forall k :: 0 <= k < |xs| ==> xs[k] >= 0) ==> 0.0 <= Mean(xs)
  {
    if |xs| > 0 {
      SumAtMost(xs, MaxOrZero(xs));
      QuotientAtMost(Sum(xs), |xs|, MaxOrZero(xs));
      if forall k :: 0 <= k < |xs| ==> xs[k] >= 0 {
        SumNonNegative(xs);
        QuotientNonNegative(Sum(xs), |xs|);
      }
    }
  }

  /** `extract_score_data(elem)`. With `Summary`'s bound and `ScoreTexts`'
      length, it counts at most one inspection per row. */
  method ExtractScoreData(e: Element) returns (stats: ScoreStats)
    ensures stats == Summary(ScoreTexts(InspectionRows(e)))
  {
    var rows := InspectionRows(e);
    var texts := ScoreTexts(rows);
    stats := TallyScores(texts);
  }

  /** The zero-seeded maximum of a non-empty list is one of its values exactly
      when some value is not negative. */
  lemma MaxOrZeroAttained(xs: seq<int>)
    requires |xs| > 0
    ensures MaxOrZero(xs) in xs <==> exists v :: v in xs && v >= 0
  {
    if exists v :: v in xs && v >= 0 {
      var v :| v in xs && v >= 0;
      var k :| 0 <= k < |xs| && xs[k] == v;
      assert MaxOrZero(xs) >= v;
    }
  }

  /** When a listing has a parsed score, its high score is one of them
      exactly when some parsed score is not negative; otherwise the 0 seed
      shows through. Without whitespace-led score texts that always holds. */
  lemma HighIsAnInspectionScore(e: Element)
    ensures var rows := InspectionRows(e);
            var texts := ScoreTexts(rows);
            Summary(texts).inspections > 0 ==>
              && (Summary(texts).high in Parsed(texts) <==> exists v :: v in Parsed(texts) && v >= 0)
              && ((forall k :: 0 <= k < |rows| ==> !StartsWithSpace(ScoreText(rows[k]))) ==>
                    Summary(texts).high in Parsed(texts))
  {
    var rows := InspectionRows(e);
    var xs := Parsed(ScoreTexts(rows));
    if |xs| > 0 {
      MaxOrZeroAttained(xs);
      CleanedScoresNonNegative(rows);
      assert xs[0] in xs;
    }
  }

  /** A listing's average score never exceeds its high score, and it is not
      negative unless some score text starts with whitespace. */
  lemma ScoreAverageWithinHigh(e: Element)
    ensures var rows := InspectionRows(e);
            var stats := Summary(ScoreTexts(rows));
            && stats.average <= stats.high as real
            && ((forall k :: 0 <= k < |rows| ==> !StartsWithSpace(ScoreText(rows[k]))) ==> 0.0 <= stats.average)
  {
    var rows := InspectionRows(e);
    CleanedScoresNonNegative(rows);
    MeanWithinBounds(Parsed(ScoreTexts(rows)));
  }

  /** The 0 seed of the high score hides a maximum below 0. */
  lemma HighScoreSeedHidesNegatives(texts: seq<string>)
    requires forall v :: v in Parsed(texts) ==> v < 0
    ensures Summary(texts).high == 0
  {
  }

  lemma ScoreTextExamples()
    ensures ParseInt("87") == Some(87)
    ensures ParseInt("92") == Some(92)
    ensures ParseInt("bad") == None
  {
    LiteralCharNotSpace('8');
    LiteralCharNotSpace('7');
    LiteralCharNotSpace('9');
    LiteralCharNotSpace('2');
    LiteralCharNotSpace('b');
    LiteralCharNotSpace('d');
    assert "87"[..1] == "8" && "92"[..1] == "9";
    ParseLiteralDigits("87");
    ParseLiteralDigits("92");
  }

  lemma ParsedExample()
    ensures Parsed(["87", "bad", "92"]) == [87, 92]
  {
    ScoreTextExamples();
    ParsedSnoc([], "87");
    ParsedSnoc(["87"], "bad");
    ParsedSnoc(["87", "bad"], "92");
    assert ["87"] + ["bad"] == ["87", "bad"];
    assert ["87", "bad"] + ["92"] == ["87", "bad", "92"];
  }

  /** Scores "87", "bad", "92": two inspections, average 89.5, high 92. */
  lemma ScoreExample()
    ensures Summary(["87", "bad", "92"]) == ScoreStats(89.5, 92, 2)
  {
    ParsedExample();
    var xs := [87, 92];
    SumSnoc([], 87);
    SumSnoc([87], 92);
    assert [87] + [92] == xs;
    assert Sum(xs) == 179;
    assert MaxOrZero(xs) == 92;
  }

  /** A score cell holding a tab before `-5`: `strip` keeps the tab, `int()`
      skips it, and the listing reports average -5, high 0 and one inspection. */
  lemma NegativeScoreExample()
    ensures CleanData(TextCell("\t-5")) == "\t-5"
    ensures Summary(["\t-5"]) == ScoreStats(-5.0, 0, 1)
  {
    CleanLetters("\t-5");
    TabbedScoreParses();
    ParsedSnoc([], "\t-5");
    assert Parsed(["\t-5"]) == [-5];
    SumSnoc([], -5);
  }

  lemma TabbedScoreParses()
    ensures ParseInt("\t-5") == Some(-5)
  {
    assert "\t-5"[1..] == "-5";
    LiteralCharNotSpace('-');
    LiteralCharNotSpace('5');
    ParseLiteralDigits("5");
    assert "-" + "5" == "-5";
  }

  /** No scores at all: zero inspections, average 0, high 0. */
  lemma EmptyScoreExample()
    ensures Summary([]) == ScoreStats(0.0, 0, 0)
  {
  }
}

=== FILE: seqs.dfy ===
/** Sequence operations shared by the tree searches of the scraper: keeping the
    elements that satisfy a predicate (BeautifulSoup's `find_all`) and finding
    the first one (`find`). */
module Seqs {
  import opened Options

  /** `idx` lists, in increasing order, positions of `b` that spell out `a`. */
  ghost predicate Embeds<T>(a: seq<T>, b: seq<T>, idx: seq<nat>) {
    && |idx| == |a|
    && (forall k :: 0 <= k < |idx| ==> idx[k] < |b| && a[k] == b[idx[k]])
    && (forall k, l :: 0 <= k < l < |idx| ==> idx[k] < idx[l])
  }

  /** `a` can be obtained from `b` by deleting elements: order is preserved. */
  ghost predicate IsSubsequence<T>(a: seq<T>, b: seq<T>) {
    exists idx :: Embeds(a, b, idx)
  }

  /** The elements of `s` that satisfy `p`, in their original order. */
  function Filter<T>(s: seq<T>, p: T -> bool): (r: seq<T>)
    ensures |r| <= |s|
    ensures forall x :: x in r ==> x in s && p(x)
    ensures forall x :: x in s && p(x) ==> x in r
    ensures forall k :: 0 <= k < |r| ==> p(r[k])
  {
    if |s| == 0 then []
    else
      var init := Filter(s[..|s| - 1], p);
      var last := s[|s| - 1];
      assert s == s[..|s| - 1] + [last];
      if p(last) then init + [last] else init
  }

  lemma FilterAppendOne<T>(s: seq<T>, x: T, p: T -> bool)
    ensures Filter(s + [x], p) == Filter(s, p) + (if p(x) then [x] else [])
  {
    assert (s + [x])[..|s|] == s;
  }

  /** Nothing is dropped when every element qualifies. */
  lemma {:induction false} FilterKeepsAll<T>(s: seq<T>, p: T -> bool)
    requires forall k :: 0 <= k < |s| ==> p(s[k])
    ensures Filter(s, p) == s
  {
    if |s| > 0 {
      FilterKeepsAll(s[..|s| - 1], p);
      assert s == s[..|s| - 1] + [s[|s| - 1]];
    }
  }

  /** `Filter` keeps exactly the positions of `s` whose element satisfies `p`,
      and keeps them in order: the result is a subsequence of `s` and no
      element that satisfies `p` is lost, however often it repeats. */
  lemma {:induction false} FilterPositions<T>(s: seq<T>, p: T -> bool) returns (idx: seq<nat>)
    ensures Embeds(Filter(s, p), s, idx)
    ensures forall j :: 0 <= j < |s| ==> (p(s[j]) <==> j in idx)
  {
    if |s| == 0 {
      idx := [];
    } else {
      var init := s[..|s| - 1];
      var last := s[|s| - 1];
      var prev := FilterPositions(init, p);
      assert s == init + [last];
      FilterAppendOne(init, last, p);
      if p(last) {
        EmbedsAppend(Filter(init, p), init, prev, last);
        idx := prev + [|s| - 1];
      } else {
        EmbedsExtend(Filter(init, p), init, prev, last);
        idx := prev;
      }
      assert forall j :: j in idx <==> j in prev || (p(last) && j == |s| - 1);
      forall j | 0 <= j < |s| - 1
        ensures p(s[j]) <==> j in idx
      {
        assert s[j] == init[j];
      }
    }
  }

  lemma EmbedsExtend<T>(a: seq<T>, b: seq<T>, idx: seq<nat>, x: T)
    requires Embeds(a, b, idx)
    ensures Embeds(a, b + [x], idx)
  {
    assert forall k :: 0 <= k < |idx| ==> (b + [x])[idx[k]] == b[idx[k]];
  }

  lemma EmbedsAppend<T>(a: seq<T>, b: seq<T>, idx: seq<nat>, x: T)
    requires Embeds(a, b, idx)
    ensures Embeds(a + [x], b + [x], idx + [|b|])
  {
    assert forall k :: 0 <= k < |idx| ==> (b + [x])[idx[k]] == b[idx[k]];
  }

  lemma FilterIsSubsequence<T>(s: seq<T>, p: T -> bool)
    ensures IsSubsequence(Filter(s, p), s)
  {
    var idx := FilterPositions(s, p);
  }

  /** The first element of `s` that satisfies `p`, if any. */
  function FindFirst<T>(s: seq<T>, p: T -> bool): (r: Option<T>)
    ensures r.None? <==> forall k :: 0 <= k < |s| ==> !p(s[k])
    ensures r.Some? ==> exists i :: 0 <= i < |s| && s[i] == r.value && p(s[i])
                                    && forall k :: 0 <= k < i ==> !p(s[k])
  {
    if |s| == 0 then None
    else if p(s[0]) then Some(s[0])
    else
      var r := FindFirst(s[1..], p);
      assert forall k :: 1 <= k < |s| ==> s[k] == s[1..][k - 1];
      r
  }

  /** Filtering three elements of which only the first two pass. */
  lemma FilterFirstTwoOfThree<T>(a: T, b: T, c: T, p: T -> bool)
    requires p(a) && p(b) && !p(c)
    ensures Filter([a, b, c], p) == [a, b]
  {
    assert [a, b, c][..2] == [a, b];
    assert [a, b][..1] == [a];
    assert [a][..0] == [];
  }

  /** The distinct elements of `s`, each at the place it first occurs. */
  function Dedup<T(==)>(s: seq<T>): (r: seq<T>)
    ensures forall k :: 0 <= k < |s| ==> s[k] in r
    ensures forall k :: 0 <= k < |r| ==> r[k] in s
    ensures forall i, j :: 0 <= i < j < |r| ==> r[i] != r[j]
  {
    if |s| == 0 then []
    else
      var r := Dedup(s[..|s| - 1]);
      assert forall k :: 0 <= k < |s| - 1 ==> s[k] == s[..|s| - 1][k];
      if s[|s| - 1] in r then r else r + [s[|s| - 1]]
  }

  lemma DedupSnoc<T>(s: seq<T>, x: T)
    ensures Dedup(s + [x]) == if x in Dedup(s) then Dedup(s) else Dedup(s) + [x]
  {
    assert (s + [x])[..|s|] == s;
  }
}

=== FILE: text.dfy ===
/** String helpers behind `clean_data` and `is_inspection_row`: Python's
    `str.strip(" \n:-")`, ASCII `str.lower()`, the `in` substring test and
    `str.startswith`. */
module Text {

  /** The characters `clean_data` strips from both ends of a cell's text. */
  predicate IsStripChar(c: char) {
    c == ' ' || c == '\n' || c == ':' || c == '-'
  }

  /** Neither end of `r` is a strip character. */
  ghost predicate Trimmed(r: string) {
    r == [] || (!IsStripChar(r[0]) && !IsStripChar(r[|r| - 1]))
  }

  /** Every character of `s` before `i` and from `j` on is a strip character. */
  ghost predicate StripsOutside(s: string, i: int, j: int) {
    && 0 <= i <= j <= |s|
    && (forall k :: 0 <= k < i ==> IsStripChar(s[k]))
    && (forall k :: j <= k < |s| ==> IsStripChar(s[k]))
  }

  /** `r` is what stripping leaves of `s`: a contiguous slice `s[i..j]` whose
      ends are not strip characters, everything before `i` and from `j` on
      being strip characters. */
  ghost predicate IsStripOf(s: string, r: string) {
    Trimmed(r) && exists i, j :: StripsOutside(s, i, j) && r == s[i..j]
  }

  /** The number of strip characters at the front of `s`. */
  function LeadingStrip(s: string): (i: nat)
    ensures i <= |s|
    ensures forall k :: 0 <= k < i ==> IsStripChar(s[k])
    ensures i < |s| ==> !IsStripChar(s[i])
  {
    if |s| == 0 || !IsStripChar(s[0]) then 0 else 1 + LeadingStrip(s[1..])
  }

  /** The length of `s` once the strip characters at its back are dropped. */
  function KeptLength(s: string): (j: nat)
    ensures j <= |s|
    ensures forall k :: j <= k < |s| ==> IsStripChar(s[k])
    ensures 0 < j ==> !IsStripChar(s[j - 1])
  {
    if |s| == 0 || !IsStripChar(s[|s| - 1]) then |s| else KeptLength(s[..|s| - 1])
  }

  lemma SliceIsStripOf(s: string, i: int, j: int)
    requires StripsOutside(s, i, j)
    requires i < j ==> !IsStripChar(s[i]) && !IsStripChar(s[j - 1])
    ensures IsStripOf(s, s[i..j])
  {
    assert i < j ==> s[i..j][0] == s[i] && s[i..j][j - i - 1] == s[j - 1];
  }

  /** Python's `s.strip(" \n:-")`. */
  function Strip(s: string): (r: string)
    ensures IsStripOf(s, r)
  {
    var i := LeadingStrip(s);
    var rest := s[i..];
    var j := i + KeptLength(rest);
    assert forall k :: j <= k < |s| ==> s[k] == rest[k - i];
    assert s[i..j] == rest[..j - i];
    SliceIsStripOf(s, i, j);
    s[i..j]
  }

  /** Two positions that each hold the first character that is not a strip
      character are the same position. */
  lemma FirstKeptUnique(s: string, a: nat, b: nat)
    requires a < |s| && b < |s| && !IsStripChar(s[a]) && !IsStripChar(s[b])
    requires forall k :: 0 <= k < a ==> IsStripChar(s[k])
    requires forall k :: 0 <= k < b ==> IsStripChar(s[k])
    ensures a == b
  {
  }

  /** Likewise for the last character that is not a strip character. */
  lemma LastKeptUnique(s: string, a: nat, b: nat)
    requires 0 < a <= |s| && 0 < b <= |s| && !IsStripChar(s[a - 1]) && !IsStripChar(s[b - 1])
    requires forall k :: a <= k < |s| ==> IsStripChar(s[k])
    requires forall k :: b <= k < |s| ==> IsStripChar(s[k])
    ensures a == b
  {
  }

  /** What a trimmed slice with only strip characters around it says about `s`:
      it is empty exactly when all of `s` is strip characters, and otherwise
      its ends are characters that are kept. */
  lemma TrimmedSlice(s: string, i: int, j: int)
    requires StripsOutside(s, i, j) && Trimmed(s[i..j])
    ensures s[i..j] == [] <==> forall k :: 0 <= k < |s| ==> IsStripChar(s[k])
    ensures s[i..j] != [] ==> i < j && !IsStripChar(s[i]) && !IsStripChar(s[j - 1])
  {
    if i < j {
      assert s[i..j][0] == s[i] && s[i..j][j - i - 1] == s[j - 1];
    }
  }

  /** At most one string is what stripping leaves of `s`. */
  lemma StripOfUnique(s: string, r1: string, r2: string)
    requires IsStripOf(s, r1) && IsStripOf(s, r2)
    ensures r1 == r2
  {
    var i1, j1 :| StripsOutside(s, i1, j1) && r1 == s[i1..j1];
    var i2, j2 :| StripsOutside(s, i2, j2) && r2 == s[i2..j2];
    TrimmedSlice(s, i1, j1);
    TrimmedSlice(s, i2, j2);
    if r1 != [] && r2 != [] {
      FirstKeptUnique(s, i1, i2);
      LastKeptUnique(s, j1, j2);
    }
  }

  /** Stripping a string that is already stripped changes nothing. */
  lemma StripIdempotent(s: string)
    ensures Strip(Strip(s)) == Strip(s)
  {
    var r := Strip(s);
    assert r == r[0..|r|];
    assert IsStripOf(r, r);
    StripOfUnique(r, Strip(r), r);
  }

  /** Stripping yields the empty string exactly when every character is a
      strip character. */
  lemma StripEmptyIff(s: string)
    ensures Strip(s) == [] <==> forall k :: 0 <= k < |s| ==> IsStripChar(s[k])
  {
    var r := Strip(s);
    if forall k :: 0 <= k < |s| ==> IsStripChar(s[k]) {
      assert s[|s|..|s|] == [];
      assert IsStripOf(s, []);
      StripOfUnique(s, r, []);
    }
  }

  /** ASCII `str.lower()`: upper-case Latin letters become lower case. */
  function LowerChar(c: char): char {
    if 'A' <= c <= 'Z' then (c as int - 'A' as int + 'a' as int) as char else c
  }

  function Lower(s: string): (r: string)
    ensures |r| == |s|
    ensures forall k :: 0 <= k < |s| ==> r[k] == LowerChar(s[k])
  {
    if |s| == 0 then [] else [LowerChar(s[0])] + Lower(s[1..])
  }

  /** Python's `sub in s`. */
  predicate Contains(s: string, sub: string) {
    exists i | 0 <= i <= |s| - |sub| :: OccursAt(s, sub, i)
  }

  /** `sub` appears in `s` starting at position `i`. */
  predicate OccursAt(s: string, sub: string, i: int) {
    0 <= i <= |s| - |sub| && s[i..i + |sub|] == sub
  }

  /** Python's `s.startswith(prefix)`. */
  predicate StartsWith(s: string, prefix: string) {
    |prefix| <= |s| && s[..|prefix|] == prefix
  }

  /** `sub in s` holds exactly when `s` splits around a copy of `sub`. */
  lemma ContainsIff(s: string, sub: string)
    ensures Contains(s, sub) <==> exists a, b :: s == a + sub + b
  {
    if Contains(s, sub) {
      var i :| 0 <= i <= |s| - |sub| && OccursAt(s, sub, i);
      assert s == s[..i] + sub + s[i + |sub|..];
    }
    if exists a, b :: s == a + sub + b {
      var a, b :| s == a + sub + b;
      assert OccursAt(s, sub, |a|);
    }
  }

  /** `s.startswith(prefix)` holds exactly when `s` is `prefix` followed by
      something. */
  lemma StartsWithIff(s: string, prefix: string)
    ensures StartsWith(s, prefix) <==> exists rest :: s == prefix + rest
  {
    if StartsWith(s, prefix) {
      assert s == prefix + s[|prefix|..];
    }
  }
}
